=== FILE: README.md ===
# RaciApp2 data model in Dafny

RaciApp2 is a Jetpack Compose app for managing projects, their participant rosters,
RACI (Responsible / Accountable / Consulted / Informed) matrices and user
("character") records, with an admin view and a user view. All its state lives in
memory, inside UI callbacks. This project takes that state and those callbacks out
of the screens and states them as Dafny state and operations, with proofs:

- `optional.dfy` — `Optional`: Kotlin's nullable values as `Option`.
- `text.dfy` — `Text`: the Kotlin string functions the rules rely on (`isWhitespace`,
  `trim`, `isBlank`, `uppercase`, `equals(ignoreCase = true)`).
- `lists.dfy` — `Lists`: `indexOfFirst` followed by an index assignment, `removeAt`, `remove`.
- `dashboard.dfy` — `Dashboard`: `ProjectItem`, the "base (type)" display-name convention
  (regex parse and compose), the edit-project confirmation and the participant-list
  editor (a class whose list is edited in place).
- `settings.dfy` — `Settings`: `Character`, the blank-position filter, the add-user
  validation, the detail-screen save and the positions list editor (a class).
- `raci.dfy` — `Raci`: the RACI editing session (a class holding positions, stages and
  the sparse cell map), the nested fill loop, cell validation and the `RaciData` snapshot.
- `session.dfy` — `Session`: the main activity's state (login, role, project lists,
  roster map, users, screen flags) as a class whose methods are the callbacks.

Where the code and the intended behaviour differ, the model follows the code:

- Adding a project always names it `"name (type)"`, even for an empty type
  (`MainActivity.kt:186`). Only the edit dialog omits the parentheses for an empty type.
  `AddedNameWithoutType` shows that, for a base without `(`, such a name parses back to base
  `"name ()"` with an empty type. With a `(` in the base the split can move:
  `"a (b ()"` parses to base `"a"` and type `"b ("` (`AddedNameWithParenInBase`).
- The participants dialog writes `project.participants` through the edit-project
  callback (`DashboardScreen.kt:430`). The RACI screen reads the separate roster map
  (`MainActivity.kt:102`), which only adding and deleting a project change.
  `Session.App.EditProject` does not modify the roster map.
- The dashboard never calls its `onParticipantsClick` parameter (`DashboardScreen.kt:326`).
  The card's participants button only opens the local participants dialog
  (`DashboardScreen.kt:387`). So the main activity's participants callback
  (`MainActivity.kt:143-148`) never runs, and the participants screen branch
  (`MainActivity.kt:120-129`) is never shown. `Session.App.OpenParticipants` models the
  callback's text, and `CurrentScreen` its branch, as written; in the running app only the
  RACI screen reads the roster map.
- Deleting removes the first project that is structurally equal to the argument
  (`MainActivity.kt:210`). It does not search by id.
- The user-record update handler replaces the record as it is given (`MainActivity.kt:87-92`).
  Blank positions are filtered by the detail screen's save, before the handler runs
  (`Settings.SaveDetails`).
- A RACI session has no Saved or Cancelled state of its own. Save and back both just
  close the screen (`Session.App.CloseRaci`). The snapshot is a function of the current
  state, so saving twice gives equal snapshots.
- Removing a RACI position or stage keeps every matrix key as it was. A value set in the
  removed column therefore shows under the column that moved into its index, and the
  entries of the last column stay in the map although no column reads them
  (`Raci.StaleKeyScenario`).
- The edit dialog accepts a base with surrounding whitespace (`DashboardScreen.kt:277-280`)
  but trims it when the project is reopened (`DashboardScreen.kt:235`). An untouched save
  then changes the name from `" a (x)"` to `"a (x)"` (`Dashboard.UntrimmedEditNameChanges`).
- The edit dialog takes the type from the leftmost match of `\(([^)]+)\)$`, which starts at
  the first `(` after which no `)` comes before the final one. For `"a (b (c)"` the type is
  `"b (c"` and the base `"a"`, not the last parenthesised group `"c"`
  (`Dashboard.NestedTypeIsLeftmost`).
- The participants dialog changes its list in place inside a state holder it never
  reassigns (`DashboardScreen.kt:91`, `170`), so the rows need not be redrawn after a
  removal. A row left on screen can then pass an index past the end, and `removeAt` or the
  index assignment throws. `Dashboard.ParticipantsEditor.RemoveAt` and `Rename` model that
  case as a `thrown` result that leaves the list unchanged (`Dashboard.StaleRowRemoval`).
  In the app the exception is not caught, so the process ends and all in-memory state is
  lost; the model only records that the list was not modified.

The string functions follow the JVM: `IsWhitespace` is exactly
`Character.isWhitespace || Character.isSpaceChar`, and `Trim` and `IsBlank` use it.
Case mapping covers ASCII plus the three non-ASCII letters that can change what the
app accepts. U+0131 (dotless i) upper-cases to `I`, U+017F (long s) to `S`, and U+0130
lower-cases to `i`. So `"admın"` logs in as admin (`Session.DotlessIAdmin`), and
`"ı"` is an accepted RACI cell input (`Raci.AcceptedCellInputs`).

## Model

| member | source | states |
|---|---|---|
| `Text.IsWhitespace` | app/src/main/java/com/example/raceapp2/ui/theme/screens/dashboard/DashboardScreen.kt:198 | the JVM whitespace set: space, tab, line feed and the no-break spaces count; digits, Latin letters and parentheses never do |
| `Text.IsBlank` | app/src/main/java/com/example/raceapp2/ui/theme/screens/dashboard/DashboardScreen.kt:277 | `isBlank()` holds for the empty string, and exactly when the leading-whitespace scan reaches the end |
| `Text.Trim` | app/src/main/java/com/example/raceapp2/ui/theme/screens/dashboard/DashboardScreen.kt:198 | `trim()` is an infix `s[i..j]` of the input with only whitespace before `i` and from `j` on, and it starts and ends with a non-whitespace character; it is empty exactly when the input is blank |
| `Text.TrimIdempotent` | app/src/main/java/com/example/raceapp2/ui/theme/screens/dashboard/DashboardScreen.kt:153-154 | trimming a trimmed name changes nothing, so names stored by add and rename are already trimmed |
| `Text.Uppercase` | app/src/main/java/com/example/raceapp2/ui/theme/screens/dashboard/RaciMatrixScreen.kt:107 | `uppercase()` keeps the length and upper-cases each character |
| `Text.EqualsIgnoreCase` | app/src/main/java/com/example/raceapp2/MainActivity.kt:70-73 | `equals(ignoreCase = true)` needs equal lengths, holds for equal strings, and holds whenever both upper-case to the same string |
| `Lists.IndexOfKey` | app/src/main/java/com/example/raceapp2/MainActivity.kt:88 | `indexOfFirst`: the first index with the key, or none exactly when no element has it |
| `Lists.ReplaceByKey` | app/src/main/java/com/example/raceapp2/MainActivity.kt:199-203 | replace-by-id keeps the length and every key; only the first element with the id becomes the new value; an unknown id changes nothing |
| `Lists.RemoveAt` | app/src/main/java/com/example/raceapp2/ui/theme/screens/dashboard/DashboardScreen.kt:170 | `removeAt(i)` drops exactly element `i`; earlier elements stay, later ones shift down by one, in order |
| `Lists.FirstIndexOf` | app/src/main/java/com/example/raceapp2/MainActivity.kt:210 | the index of the first occurrence of an element that is present |
| `Lists.RemoveFirst` | app/src/main/java/com/example/raceapp2/MainActivity.kt:210 | `remove(x)` drops the first occurrence of `x` (one copy, in place), and is a no-op when `x` is absent |
| `Lists.RemoveFirstKeepsOthers` | app/src/main/java/com/example/raceapp2/MainActivity.kt:210 | every element different from the removed one survives the removal |
| `Dashboard.FindTypeMatch` | app/src/main/java/com/example/raceapp2/ui/theme/screens/dashboard/DashboardScreen.kt:232 | `Regex.find` for `\(([^)]+)\)$`: the leftmost match position, or none exactly when there is no match |
| `Dashboard.LastIndexOf` | app/src/main/java/com/example/raceapp2/ui/theme/screens/dashboard/DashboardScreen.kt:235 | the last occurrence of the delimiter up to a bound, or none exactly when it does not occur |
| `Dashboard.SubstringBeforeLast` | app/src/main/java/com/example/raceapp2/ui/theme/screens/dashboard/DashboardScreen.kt:235 | a prefix of the input: when the delimiter occurs, the prefix ends where its last occurrence starts; when it does not, the whole string |
| `Dashboard.ParseName` | app/src/main/java/com/example/raceapp2/ui/theme/screens/dashboard/DashboardScreen.kt:231-240 | the type is non-empty iff the pattern matches; it is then the text inside the leftmost match, which ends the name, has no `)`, and the base is `trim(substringBeforeLast(" (type)"))`; otherwise the base is the whole name |
| `Dashboard.NestedTypeIsLeftmost` | app/src/main/java/com/example/raceapp2/ui/theme/screens/dashboard/DashboardScreen.kt:232-236 | `"a (b (c)"` parses to base `"a"` and type `"b (c"`: the leftmost match is taken, not the last group |
| `Dashboard.AddedName` | app/src/main/java/com/example/raceapp2/MainActivity.kt:186 | the add dialog's name is the base, `" ("`, the type and `")"`, even for an empty type |
| `Dashboard.ComposeName` | app/src/main/java/com/example/raceapp2/ui/theme/screens/dashboard/DashboardScreen.kt:280 | the edit dialog's name is the bare name for an empty type and `"name (type)"` otherwise; `ParseComposedName` is its inverse |
| `Dashboard.ParseComposedName` | app/src/main/java/com/example/raceapp2/ui/theme/screens/dashboard/DashboardScreen.kt:231-240 | round trip: parsing `"n (t)"` yields `(trim(n), t)` for non-empty `t` without `)` and `n` without `(` |
| `Dashboard.AddedNameWithoutType` | app/src/main/java/com/example/raceapp2/MainActivity.kt:186 | for a base `n` without `(`, the add dialog's name for an empty type, `"n ()"`, parses to base `"n ()"` and an empty type |
| `Dashboard.AddedNameWithParenInBase` | app/src/main/java/com/example/raceapp2/MainActivity.kt:186 | with a `(` in the base, `"a (b ()"` parses to base `"a"` and type `"b ("`, not back to the added name |
| `Dashboard.EditForm` | app/src/main/java/com/example/raceapp2/ui/theme/screens/dashboard/DashboardScreen.kt:231-243 | the edit dialog opens with exactly `ParseName` of the project name as base and type, and the owner or `""` |
| `Dashboard.ConfirmEdit` | app/src/main/java/com/example/raceapp2/ui/theme/screens/dashboard/DashboardScreen.kt:276-284 | accepted iff name and owner are non-blank; the result is the project with name `ComposeName(name, type)` and the owner set, all else kept; that name parses back to (trimmed name, type) for a non-empty type without `)` and a name without `(` |
| `Dashboard.UnchangedEditKeepsName` | app/src/main/java/com/example/raceapp2/ui/theme/screens/dashboard/DashboardScreen.kt:231-284 | for a stored name `ComposeName(n, t)` with `n` trimmed, non-blank and without `(`, `t` without `)`, and a non-blank owner, confirming the reopened edit dialog untouched gives back the same project |
| `Dashboard.PaddedNameParse` | app/src/main/java/com/example/raceapp2/ui/theme/screens/dashboard/DashboardScreen.kt:231-240 | reopening `" a (x)"` shows base `"a"` (trimmed) and type `"x"` |
| `Dashboard.UntrimmedEditNameChanges` | app/src/main/java/com/example/raceapp2/ui/theme/screens/dashboard/DashboardScreen.kt:231-284 | the edit dialog accepts an untrimmed base such as `" a"`, but an untouched save after reopening writes `"a (x)"` instead of `" a (x)"` |
| `Dashboard.WithParticipant` | app/src/main/java/com/example/raceapp2/ui/theme/screens/dashboard/DashboardScreen.kt:197-202 | adding appends `trim(name)` as the new last element, earlier ones untouched, iff it is non-empty and not listed; otherwise the list is unchanged |
| `Dashboard.AddTwiceIsAddOnce` | app/src/main/java/com/example/raceapp2/ui/theme/screens/dashboard/DashboardScreen.kt:199 | a second add of the same trimmed name leaves the list unchanged |
| `Dashboard.AddKeepsDistinct` | app/src/main/java/com/example/raceapp2/ui/theme/screens/dashboard/DashboardScreen.kt:199-200 | the add rule never introduces a duplicate |
| `Dashboard.AddKeepsClean` | app/src/main/java/com/example/raceapp2/ui/theme/screens/dashboard/DashboardScreen.kt:198-200 | the add rule never stores an empty or untrimmed name |
| `Dashboard.RenameKeepsListClean` | app/src/main/java/com/example/raceapp2/ui/theme/screens/dashboard/DashboardScreen.kt:153-154 | the rename rule never stores an empty or untrimmed name |
| `Dashboard.ParticipantsEditor.constructor` | app/src/main/java/com/example/raceapp2/ui/theme/screens/dashboard/DashboardScreen.kt:91-92 | the dialog starts from the project's participants and an empty input field |
| `Dashboard.ParticipantsEditor.EditNewParticipant` | app/src/main/java/com/example/raceapp2/ui/theme/screens/dashboard/DashboardScreen.kt:186 | typing changes only the input field |
| `Dashboard.ParticipantsEditor.Add` | app/src/main/java/com/example/raceapp2/ui/theme/screens/dashboard/DashboardScreen.kt:197-202 | the list becomes `WithParticipant` of the old list and field; the field is cleared exactly when the add succeeds |
| `Dashboard.ParticipantsEditor.Rename` | app/src/main/java/com/example/raceapp2/ui/theme/screens/dashboard/DashboardScreen.kt:152-156 | stores `trim(value)` at the index iff it is non-empty and the index is in range; a non-empty value at an index past the end throws, which ends the app, and the model leaves the list unmodified; otherwise nothing changes |
| `Dashboard.ParticipantsEditor.RemoveAt` | app/src/main/java/com/example/raceapp2/ui/theme/screens/dashboard/DashboardScreen.kt:170 | deletes exactly the entry at the index, the rest keeping their order; an index past the end throws, which ends the app; the model then leaves the list unmodified |
| `Dashboard.ParticipantsEditor.Confirmed` | app/src/main/java/com/example/raceapp2/ui/theme/screens/dashboard/DashboardScreen.kt:429-431 | `project.copy(participants = list)`: only the participants change |
| `Dashboard.StaleRowRemoval` | app/src/main/java/com/example/raceapp2/ui/theme/screens/dashboard/DashboardScreen.kt:170 | tapping delete twice on the last row of two throws the second time |
| `Settings.NonBlank` | app/src/main/java/com/example/raceapp2/ui/theme/screens/settings/SettingsScreen.kt:217 | `filter { it.isNotBlank() }`: no kept entry is blank, and an entry is kept iff it is in the input and not blank |
| `Settings.NonBlankAppend` | app/src/main/java/com/example/raceapp2/ui/theme/screens/settings/SettingsScreen.kt:217 | the filter distributes over concatenation, so the kept entries keep their order |
| `Settings.NonBlankOfClean` | app/src/main/java/com/example/raceapp2/ui/theme/screens/settings/SettingsScreen.kt:135 | a list without blank entries is stored unchanged |
| `Settings.AppendedBlankIsDropped` | app/src/main/java/com/example/raceapp2/ui/theme/screens/settings/SettingsScreen.kt:277-281 | the empty row the add button appends is removed again at save time |
| `Settings.ConfirmCharacter` | app/src/main/java/com/example/raceapp2/ui/theme/screens/settings/SettingsScreen.kt:216-226 | accepted iff the login is non-blank and some position is non-blank; keeps id and phone, sets login, description and the filtered, non-empty positions |
| `Settings.NewCharacter` | app/src/main/java/com/example/raceapp2/ui/theme/screens/settings/SettingsScreen.kt:99-107 | an added user is the template with the fresh id, phone `""`, the login and description, and the filtered positions, when valid |
| `Settings.EmptyLoginRejected` | app/src/main/java/com/example/raceapp2/ui/theme/screens/settings/SettingsScreen.kt:218 | a blank login is refused |
| `Settings.BlankPositionsRejected` | app/src/main/java/com/example/raceapp2/ui/theme/screens/settings/SettingsScreen.kt:217-218 | positions that are all blank are refused |
| `Settings.SaveDetails` | app/src/main/java/com/example/raceapp2/ui/theme/screens/settings/SettingsScreen.kt:134-136 | saving details keeps id and phone, takes login and description unvalidated, and stores exactly the non-blank positions in their order |
| `Settings.PositionsEditor.constructor` | app/src/main/java/com/example/raceapp2/ui/theme/screens/settings/SettingsScreen.kt:245 | the editor starts from the given positions |
| `Settings.PositionsEditor.Edit` | app/src/main/java/com/example/raceapp2/ui/theme/screens/settings/SettingsScreen.kt:255-259 | replaces only the entry at the index, keeps the length, and publishes the new list |
| `Settings.PositionsEditor.Remove` | app/src/main/java/com/example/raceapp2/ui/theme/screens/settings/SettingsScreen.kt:264-268 | deletes exactly the entry at the index and publishes the new list |
| `Settings.PositionsEditor.Append` | app/src/main/java/com/example/raceapp2/ui/theme/screens/settings/SettingsScreen.kt:277-281 | appends one `""` at the end, the rest unchanged, and publishes the new list |
| `Raci.BlankMatrix` | app/src/main/java/com/example/raceapp2/ui/theme/screens/dashboard/RaciMatrixScreen.kt:33-41 | the nested fill gives a map whose keys are exactly the (row, col) pairs in range, all mapped to `""` |
| `Raci.CellValue` | app/src/main/java/com/example/raceapp2/ui/theme/screens/dashboard/RaciMatrixScreen.kt:102 | an absent key reads as `""`; a stored key reads as its value, which is a code when the map holds only codes |
| `Raci.WriteCell` | app/src/main/java/com/example/raceapp2/ui/theme/screens/dashboard/RaciMatrixScreen.kt:106-111 | stores `uppercase(v)` iff it is one of `"" R A C I`, else the map is unchanged; no other key changes; a map of codes stays one |
| `Raci.AcceptedCellInputs` | app/src/main/java/com/example/raceapp2/ui/theme/screens/dashboard/RaciMatrixScreen.kt:107-108 | a cell accepts exactly `""`, the letters r a c i in either case, and dotless i |
| `Raci.RaciSession.constructor` | app/src/main/java/com/example/raceapp2/ui/theme/screens/dashboard/RaciMatrixScreen.kt:29-41 | two default positions and stages, the project's name, and every cell of the 2 x 2 grid stored as `""` |
| `Raci.RaciSession.Cell` | app/src/main/java/com/example/raceapp2/ui/theme/screens/dashboard/RaciMatrixScreen.kt:101-102 | a cell shows its stored value, `""` when its key is absent, and always a code |
| `Raci.RaciSession.SetCell` | app/src/main/java/com/example/raceapp2/ui/theme/screens/dashboard/RaciMatrixScreen.kt:106-111 | the map becomes `WriteCell` of the old map; accepted iff the upper-cased input is a code; labels untouched; the all-codes invariant holds |
| `Raci.RaciSession.RenameTask` | app/src/main/java/com/example/raceapp2/ui/theme/screens/dashboard/RaciMatrixScreen.kt:129-131 | only the project-name field changes |
| `Raci.RaciSession.RenamePosition` | app/src/main/java/com/example/raceapp2/ui/theme/screens/dashboard/RaciMatrixScreen.kt:143-145 | replaces only that label, keeps the length, leaves the matrix untouched |
| `Raci.RaciSession.RemovePosition` | app/src/main/java/com/example/raceapp2/ui/theme/screens/dashboard/RaciMatrixScreen.kt:149-151 | removes that label; matrix keys neither removed nor renumbered |
| `Raci.RaciSession.AddPosition` | app/src/main/java/com/example/raceapp2/ui/theme/screens/dashboard/RaciMatrixScreen.kt:156 | appends "Новая должность" and adds no matrix key |
| `Raci.RaciSession.RenameStage` | app/src/main/java/com/example/raceapp2/ui/theme/screens/dashboard/RaciMatrixScreen.kt:169-171 | replaces only that label, keeps the length, leaves the matrix untouched |
| `Raci.RaciSession.RemoveStage` | app/src/main/java/com/example/raceapp2/ui/theme/screens/dashboard/RaciMatrixScreen.kt:175-177 | removes that label; matrix keys neither removed nor renumbered |
| `Raci.RaciSession.AddStage` | app/src/main/java/com/example/raceapp2/ui/theme/screens/dashboard/RaciMatrixScreen.kt:182 | appends "Новый этап" and adds no matrix key |
| `Raci.RaciSession.Snapshot` | app/src/main/java/com/example/raceapp2/ui/theme/screens/dashboard/RaciMatrixScreen.kt:193-199 | the saved `RaciData` equals the current name, positions, stages, participants and matrix, and its matrix holds only codes |
| `Raci.StaleKeyScenario` | app/src/main/java/com/example/raceapp2/ui/theme/screens/dashboard/RaciMatrixScreen.kt:149-151 | after setting a cell of the first position and removing that position, the moved-in column "Разработчик" shows the value `R` |
| `Session.LoginDecision` | app/src/main/java/com/example/raceapp2/MainActivity.kt:69-77 | admin iff the name equals "admin" ignoring case and the password is "admin"; user iff "user"/"user"; nothing otherwise |
| `Session.AdminNameInAnyCase` | app/src/main/java/com/example/raceapp2/MainActivity.kt:70 | every ASCII capitalisation of "admin" with password "admin" logs in as admin |
| `Session.DotlessIAdmin` | app/src/main/java/com/example/raceapp2/MainActivity.kt:70 | case-insensitive comparison also admits "admın" |
| `Session.ReplaceKeepsIds` | app/src/main/java/com/example/raceapp2/MainActivity.kt:199-203 | editing by id keeps the set of project ids and their uniqueness |
| `Session.RemoveKeepsOtherIds` | app/src/main/java/com/example/raceapp2/MainActivity.kt:210 | deleting a project loses no id other than its own |
| `Session.RemoveKeepsUnique` | app/src/main/java/com/example/raceapp2/MainActivity.kt:210 | deleting a project keeps the ids unique |
| `Session.AppendFreshKeepsUnique` | app/src/main/java/com/example/raceapp2/MainActivity.kt:184-190 | appending a project with a fresh id keeps the ids unique |
| `Session.App.constructor` | app/src/main/java/com/example/raceapp2/MainActivity.kt:26-64 | the start state: logged out, user role, the sample projects, rosters and users, no flag set, every roster belonging to a project |
| `Session.App.Roster` | app/src/main/java/com/example/raceapp2/MainActivity.kt:102 | a project without a roster entry reads as the empty list |
| `Session.App.CurrentScreen` | app/src/main/java/com/example/raceapp2/MainActivity.kt:66-135 | the `when` order: login iff logged out, then settings, then RACI with a selected project, then participants with a selected project, else the dashboard; RACI and participants get the selected project's roster; the dashboard lists the admin projects for an admin and the user projects for a user |
| `Session.App.Login` | app/src/main/java/com/example/raceapp2/MainActivity.kt:69-77 | logs in with the decided role, or changes nothing |
| `Session.App.Logout` | app/src/main/java/com/example/raceapp2/MainActivity.kt:164-173 | clears every navigation flag, dialog target and the selected project, and shows the login screen |
| `Session.App.OpenRaci` | app/src/main/java/com/example/raceapp2/MainActivity.kt:137-142 | only an admin selects the project and opens the RACI screen |
| `Session.App.OpenParticipants` | app/src/main/java/com/example/raceapp2/MainActivity.kt:143-148 | the callback's text: only an admin selects the project and sets the participants flag; the dashboard never invokes it |
| `Session.App.RequestAddProject` | app/src/main/java/com/example/raceapp2/MainActivity.kt:149-153 | only an admin opens the add dialog |
| `Session.App.RequestEdit` | app/src/main/java/com/example/raceapp2/MainActivity.kt:154-158 | only an admin sets the project to edit |
| `Session.App.RequestDelete` | app/src/main/java/com/example/raceapp2/MainActivity.kt:159-163 | only an admin sets the project to delete |
| `Session.App.OpenSettings` | app/src/main/java/com/example/raceapp2/MainActivity.kt:174-178 | only an admin opens the user settings |
| `Session.App.CloseSettings` | app/src/main/java/com/example/raceapp2/MainActivity.kt:86 | leaves the user settings |
| `Session.App.CloseRaci` | app/src/main/java/com/example/raceapp2/MainActivity.kt:103-116 | back and save both close the RACI screen and clear the selection |
| `Session.App.CloseParticipants` | app/src/main/java/com/example/raceapp2/MainActivity.kt:124-127 | closes the participants screen and clears the selection |
| `Session.App.DismissDialogs` | app/src/main/java/com/example/raceapp2/MainActivity.kt:182-208 | dismissing clears the add flag, the project to edit or the project to delete |
| `Session.App.AddProject` | app/src/main/java/com/example/raceapp2/MainActivity.kt:183-195 | appends one project `"name (type)"` with the owner, 0 tasks and no participants; sets its roster to `[]`; selects it and shows its RACI screen; keeps every roster owned and, for a fresh id, ids unique |
| `Session.App.EditProject` | app/src/main/java/com/example/raceapp2/MainActivity.kt:199-205 | replaces the first project with the same id in place (no-op for an unknown id); ids, their uniqueness and the roster map are unchanged |
| `Session.App.DeleteProject` | app/src/main/java/com/example/raceapp2/MainActivity.kt:209-213 | removes the first equal project and its roster entry; that id then reads as an empty roster; no roster is orphaned |
| `Session.App.UpdateCharacter` | app/src/main/java/com/example/raceapp2/MainActivity.kt:87-92 | replaces the first user with the same id in place; an unknown id changes nothing |
| `Session.App.AddCharacter` | app/src/main/java/com/example/raceapp2/MainActivity.kt:93-95 | appends the user unchanged |

## Left out

- Compose rendering: layout, scrolling, cards, icons, theming and previews. Screen-local
  dialog flags are also out: the per-row `isEditing`, `editingParticipantsFor`, the settings
  screen's `showAddDialog` and `selectedCharacter`, and the `isEditable` gate on the
  details save button.
- The per-cell `remember` text state of the RACI grid (`RaciMatrixScreen.kt:102`). It is a
  recomposition cache of `raciValues`. Only the map is modelled.
- `UUID.randomUUID()`: the new id is a `freshId` parameter. Uniqueness is proved only for
  a fresh id.
- `println` of the saved matrix (`MainActivity.kt:108-113`). It is output only.
- The participants screen, the project detail screen, the login form and the duplicate
  `ProjectItem` in `ProjectItem.kt` have no data logic. ParticipantsScreen.kt,
  ProjectDetailScreen.kt, LoginScreen.kt and ProjectItem.kt are not part of this model.
- `Text.Uppercase`: does not model full Unicode upper-casing. Only ASCII, dotless i and
  long s are mapped; every other character is left as it is, and expansions such as
  `ß` to `SS` are not modelled. No other character upper-cases to R, A, C or I, so the
  set of accepted cell inputs is the same.
- `Session.LoginDecision`: compares names ignoring case only for ASCII, dotless i, long s
  and capital dotted I. Other Unicode case pairs are not modelled.
- `Dashboard.FindTypeMatch`: does not model that Java's `$` also matches before a final
  line terminator. The single-line text fields do not produce one.
- Out-of-range indices outside the participants dialog: the positions editor and the RACI
  label editors reassign their list on every change, so their rows are redrawn and always
  pass an in-range index. Their methods require one. The participants dialog's stale
  indices are modelled.
- `taskCount` is a Kotlin `Int`. No arithmetic is done on it, so there is no overflow to model.

=== FILE: dashboard.dfy ===
/**
 * The data rules of the project dashboard: the project record, the
 * "base (type)" display-name convention used by the add and edit dialogs, the
 * edit-dialog confirmation, and the participant-list editor.
 */
module Dashboard {
  import opened Optional
  import opened Text
  import Lists

  /** `UserRole`. */
  datatype Role = Admin | User

  /** `ProjectItem`: `ownerName` is nullable, `participants` defaults to the empty list. */
  datatype Project = Project(
    id: string,
    name: string,
    taskCount: int,
    ownerName: Option<string>,
    participants: seq<string>)

  /** The key by which the registry looks projects up. */
  function IdOf(p: Project): string { p.id }

  // ---------------------------------------------------------------------------
  // The display-name convention "base (type)"
  // ---------------------------------------------------------------------------

  /**
   * The pattern `\(([^)]+)\)$` matches at position `q`: an opening parenthesis at `q`,
   * a closing one as the last character, and at least one character between them,
   * none of which is a closing parenthesis.
   */
  predicate TypeMatchAt(name: string, q: int) {
    && 0 <= q && q + 2 < |name|
    && name[q] == '(' && name[|name| - 1] == ')'
    && ')' !in name[q + 1..|name| - 1]
  }

  /** `Regex.find`: the leftmost match that starts at or after `from`. */
  function FindTypeMatch(name: string, from: nat): (r: Option<nat>)
    ensures r.Some? ==> from <= r.value && TypeMatchAt(name, r.value)
    ensures r.Some? ==> forall k :: from <= k < r.value ==> !TypeMatchAt(name, k)
    ensures r.None? <==> forall k :: from <= k ==> !TypeMatchAt(name, k)
    decreases |name| - from
  {
    if from + 2 >= |name| then None
    else if TypeMatchAt(name, from) then Some(from)
    else FindTypeMatch(name, from + 1)
  }

  /** `d` occurs in `s` starting at `k`. */
  predicate OccursAt(s: string, d: string, k: int) {
    0 <= k && k + |d| <= |s| && s[k..k + |d|] == d
  }

  /** `lastIndexOf(d)` among the start positions up to `i`. */
  function LastIndexOf(s: string, d: string, i: int): (r: Option<nat>)
    ensures r.Some? ==> r.value <= i && OccursAt(s, d, r.value)
    ensures r.Some? ==> forall k :: r.value < k <= i ==> !OccursAt(s, d, k)
    ensures r.None? ==> forall k :: k <= i ==> !OccursAt(s, d, k)
    decreases i + 1
  {
    if i < 0 then None
    else if OccursAt(s, d, i) then Some(i)
    else LastIndexOf(s, d, i - 1)
  }

  /** `substringBeforeLast(d)`: the prefix before the last occurrence of `d`, or `s` itself. */
  function SubstringBeforeLast(s: string, d: string): (r: string)
    requires d != ""
    ensures |r| <= |s| && r == s[..|r|]
    ensures (forall k :: !OccursAt(s, d, k)) ==> r == s
    ensures (exists k :: OccursAt(s, d, k)) ==> OccursAt(s, d, |r|)
    ensures OccursAt(s, d, |r|) ==> forall k :: |r| < k ==> !OccursAt(s, d, k)
  {
    match LastIndexOf(s, d, |s| - |d|)
    case None => s
    case Some(k) => s[..k]
  }

  /**
   * How the edit dialog pre-fills its fields from a display name: when the name
   * ends in a parenthesised type, the type and the trimmed text before the last
   * " (type)"; otherwise the whole name and an empty type.
   */
  function ParseName(name: string): (r: (string, string))
    ensures r.1 == "" <==> forall q :: !TypeMatchAt(name, q)
    ensures r.1 == "" ==> r.0 == name
    ensures r.1 != "" ==> ')' !in r.1 && |r.1| + 2 <= |name|
    ensures r.1 != "" ==> name[|name| - |r.1| - 2..] == "(" + r.1 + ")"
    ensures r.1 != "" ==> FindTypeMatch(name, 0) == Some(|name| - |r.1| - 2)
    ensures r.1 != "" ==> r.0 == Trim(SubstringBeforeLast(name, " (" + r.1 + ")"))
  {
    match FindTypeMatch(name, 0)
    case None => (name, "")
    case Some(q) =>
      var t := name[q + 1..|name| - 1];
      assert name[q..] == "(" + t + ")";
      (Trim(SubstringBeforeLast(name, " (" + t + ")")), t)
  }

  /** The name the add dialog builds: always "name (type)", even for an empty type. */
  function AddedName(name: string, taskType: string): (r: string)
    ensures |r| == |name| + |taskType| + 3
    ensures r[..|name|] == name && r[|name|..|name| + 2] == " ("
    ensures r[|name| + 2..|r| - 1] == taskType && r[|r| - 1] == ')'
  {
    name + " (" + taskType + ")"
  }

  /** The name the edit dialog builds: "name (type)", or just the name for an empty type. */
  function ComposeName(name: string, taskType: string): (r: string)
    ensures taskType == "" ==> r == name
    ensures taskType != "" ==> r == AddedName(name, taskType)
  {
    if taskType != "" then AddedName(name, taskType) else name
  }

  /**
   * Round trip: a composed name parses back into the trimmed base name and the type,
   * as long as the base has no opening and the type no closing parenthesis.
   */
  lemma {:induction false} ParseComposedName(n: string, t: string)
    requires t != "" && ')' !in t && '(' !in n
    ensures ParseName(ComposeName(n, t)) == (Trim(n), t)
  {
    var s := ComposeName(n, t);
    var q := |n| + 1;
    assert s[q + 1..|s| - 1] == t;
    assert TypeMatchAt(s, q);
    forall k | 0 <= k < q ensures !TypeMatchAt(s, k) {
      if k < |n| { assert s[k] == n[k]; } else { assert s[k] == ' '; }
    }
    assert FindTypeMatch(s, 0) == Some(q);
    var d := " (" + t + ")";
    assert s[|n|..|n| + |d|] == d;
    assert OccursAt(s, d, |n|);
    assert LastIndexOf(s, d, |s| - |d|) == Some(|n|);
    assert SubstringBeforeLast(s, d) == n;
  }

  /**
   * The add dialog's name for an empty type does not parse back: "n ()" keeps its
   * parentheses in the base name and yields an empty type.
   */
  lemma {:induction false} AddedNameWithoutType(n: string)
    requires '(' !in n
    ensures ParseName(AddedName(n, "")) == (n + " ()", "")
  {
    var s := AddedName(n, "");
    assert |s| == |n| + 3 && s[|n|] == ' ' && s[|n| + 1] == '(';
    forall k | 0 <= k < |s| ensures !TypeMatchAt(s, k) {
      if k < |n| { assert s[k] == n[k]; }
    }
    assert FindTypeMatch(s, 0).None?;
    assert s == n + " ()";
  }

  /**
   * The type is taken from the leftmost match of the pattern, which runs from the first
   * '(' after which no ')' occurs before the final one: "a (b (c)" has the type "b (c",
   * not "c", and the base "a".
   */
  lemma {:induction false} NestedTypeIsLeftmost()
    ensures ParseName("a (b (c)") == ("a", "b (c")
  {
    var s := "a (b (c)";
    assert !TypeMatchAt(s, 0) && !TypeMatchAt(s, 1);
    assert s[3..7] == "b (c" && TypeMatchAt(s, 2);
    assert FindTypeMatch(s, 0) == Some(2);
    var d := " (b (c)";
    assert OccursAt(s, d, 1);
    assert " (" + "b (c" + ")" == d;
    assert LastIndexOf(s, d, |s| - |d|) == Some(1);
    assert SubstringBeforeLast(s, d) == "a";
    assert Trim("a") == "a" by { TrimOfTrimmed("a"); }
  }

  /**
   * Without the condition on the base, the add dialog's name for an empty type can parse
   * into a different split: in "a (b ()" the pattern matches "(b ()", so the type is "b ("
   * and the base "a".
   */
  lemma {:induction false} AddedNameWithParenInBase()
    ensures ParseName(AddedName("a (b", "")) == ("a", "b (")
  {
    var s := AddedName("a (b", "");
    assert s == "a (b ()";
    assert !TypeMatchAt(s, 0) && !TypeMatchAt(s, 1);
    assert s[3..|s| - 1] == "b (" && TypeMatchAt(s, 2);
    assert FindTypeMatch(s, 0) == Some(2);
    var d := " (b ()";
    assert " (" + "b (" + ")" == d;
    assert OccursAt(s, d, 1);
    assert LastIndexOf(s, d, |s| - |d|) == Some(1);
    assert SubstringBeforeLast(s, d) == "a";
    assert Trim("a") == "a" by { TrimOfTrimmed("a"); }
  }

  /** The fields the edit dialog opens with: base name, type and owner (empty if none). */
  function EditForm(p: Project): (form: (string, string, string))
    ensures form.2 == p.ownerName.OrElse("")
    ensures form.1 == "" ==> form.0 == p.name
    ensures (form.0, form.1) == ParseName(p.name)
  {
    var (base, t) := ParseName(p.name);
    (base, t, p.ownerName.OrElse(""))
  }

  /**
   * The edit dialog's confirm button: accepted only with a non-blank name and owner;
   * the result renames the project and sets its owner, keeping id, task count and
   * participants.
   */
  function ConfirmEdit(p: Project, name: string, taskType: string, owner: string): (r: Option<Project>)
    ensures r.Some? <==> !IsBlank(name) && !IsBlank(owner)
    ensures r.Some? ==> r.value == p.(name := ComposeName(name, taskType), ownerName := Some(owner))
    ensures r.Some? && taskType != "" && ')' !in taskType && '(' !in name ==>
              ParseName(r.value.name) == (Trim(name), taskType)
  {
    if IsBlank(name) || IsBlank(owner) then None
    else
      assert taskType != "" && ')' !in taskType && '(' !in name ==>
               ParseName(ComposeName(name, taskType)) == (Trim(name), taskType) by {
        if taskType != "" && ')' !in taskType && '(' !in name { ParseComposedName(name, taskType); }
      }
      Some(p.(name := ComposeName(name, taskType), ownerName := Some(owner)))
  }

  /**
   * Opening the edit dialog and confirming it untouched leaves a name written by the
   * edit dialog as it was.
   */
  lemma {:induction false} UnchangedEditKeepsName(p: Project, n: string, t: string, owner: string)
    requires p.name == ComposeName(n, t)
    requires '(' !in n && ')' !in t && Trim(n) == n && !IsBlank(n)
    requires p.ownerName == Some(owner) && !IsBlank(owner)
    ensures ConfirmEdit(p, EditForm(p).0, EditForm(p).1, EditForm(p).2) == Some(p)
  {
    if t != "" {
      ParseComposedName(n, t);
    } else {
      assert forall q :: !TypeMatchAt(n, q) by {
        forall q | 0 <= q < |n| ensures n[q] != '(' { }
      }
    }
  }

  /** Reopening a project named " a (x)" shows the trimmed base "a" and the type "x". */
  lemma {:induction false} PaddedNameParse()
    ensures ParseName(" a (x)") == ("a", "x")
  {
    assert Trim(" a") == "a" by {
      assert LeadingEnd(" a", 1) == 1 && LeadingEnd(" a", 0) == 1 && TrailingStart(" a", 2) == 2;
    }
    assert " a (x)" == ComposeName(" a", "x");
    ParseComposedName(" a", "x");
  }

  /**
   * The edit dialog accepts a base with surrounding whitespace, but reopening the
   * project trims it, so confirming the reopened dialog untouched changes the name.
   */
  lemma {:induction false} UntrimmedEditNameChanges(p: Project)
    requires p.name == " a (x)" && p.ownerName == Some("o")
    ensures ConfirmEdit(p, EditForm(p).0, EditForm(p).1, EditForm(p).2) == Some(p.(name := "a (x)"))
  {
    PaddedNameParse();
    assert !IsBlank("a") && !IsBlank("o") by {
      assert !IsWhitespace("a"[0]) && !IsWhitespace("o"[0]);
    }
    assert EditForm(p) == ("a", "x", "o");
    assert ComposeName("a", "x") == "a (x)";
  }

  // ---------------------------------------------------------------------------
  // The participant list of the "edit participants" dialog
  // ---------------------------------------------------------------------------

  /** The add button's rule: append the trimmed name unless it is empty or already listed. */
  function WithParticipant(list: seq<string>, raw: string): (r: seq<string>)
    ensures Trim(raw) == "" || Trim(raw) in list ==> r == list
    ensures Trim(raw) != "" && Trim(raw) !in list ==>
              |r| == |list| + 1 && r[..|list|] == list && r[|list|] == Trim(raw)
  {
    var trimmed := Trim(raw);
    if trimmed != "" && trimmed !in list then list + [trimmed] else list
  }

  /** A second add of the same name (up to surrounding whitespace) changes nothing. */
  lemma AddTwiceIsAddOnce(list: seq<string>, raw: string, again: string)
    requires Trim(again) == Trim(raw)
    ensures WithParticipant(WithParticipant(list, raw), again) == WithParticipant(list, raw)
  {
  }

  /** No name occurs twice. */
  predicate Distinct(list: seq<string>) {
    forall i, j :: 0 <= i < j < |list| ==> list[i] != list[j]
  }

  /** Every name is non-empty and has no surrounding whitespace. */
  predicate Clean(list: seq<string>) {
    forall i :: 0 <= i < |list| ==> list[i] != "" && Trim(list[i]) == list[i]
  }

  /** The add rule keeps a list free of duplicates. */
  lemma {:induction false} AddKeepsDistinct(list: seq<string>, raw: string)
    requires Distinct(list)
    ensures Distinct(WithParticipant(list, raw))
  {
    var r := WithParticipant(list, raw);
    if r != list {
      forall i, j | 0 <= i < j < |r| ensures r[i] != r[j] {
        if j == |list| { assert r[i] == list[i]; assert list[i] in list; }
        else { assert r[i] == list[i] && r[j] == list[j]; }
      }
    }
  }

  /** The add rule keeps a list free of untrimmed or empty names. */
  lemma {:induction false} AddKeepsClean(list: seq<string>, raw: string)
    requires Clean(list)
    ensures Clean(WithParticipant(list, raw))
  {
    var r := WithParticipant(list, raw);
    if r != list {
      TrimIdempotent(raw);
      forall i | 0 <= i < |r| ensures r[i] != "" && Trim(r[i]) == r[i] {
        if i < |list| { assert r[i] == list[i]; }
      }
    }
  }

  /** The rename rule keeps a list free of untrimmed or empty names (duplicates are not checked). */
  lemma {:induction false} RenameKeepsListClean(list: seq<string>, index: nat, raw: string)
    requires index < |list| && Clean(list) && Trim(raw) != ""
    ensures Clean(list[index := Trim(raw)])
  {
    TrimIdempotent(raw);
  }

  /**
   * The dialog's working copy of a project's participants. The list is edited in
   * place; confirming hands it back as the project's new participant list.
   */
  class ParticipantsEditor {
    var participants: seq<string>
    var newParticipant: string

    constructor (p: Project)
      ensures participants == p.participants && newParticipant == ""
    {
      participants := p.participants;
      newParticipant := "";
    }

    /** Typing into the "new participant" field. */
    method EditNewParticipant(text: string)
      modifies this
      ensures newParticipant == text && participants == old(participants)
    {
      newParticipant := text;
    }

    /** The add button: appends the trimmed name when it is new and non-empty, then clears the field. */
    method Add() returns (added: bool)
      modifies this
      ensures added <==> Trim(old(newParticipant)) != "" && Trim(old(newParticipant)) !in old(participants)
      ensures participants == WithParticipant(old(participants), old(newParticipant))
      ensures newParticipant == if added then "" else old(newParticipant)
    {
      var trimmed := Trim(newParticipant);
      added := trimmed != "" && trimmed !in participants;
      if added {
        participants := participants + [trimmed];
        newParticipant := "";
      }
    }

    /**
     * The check button of a row being edited: stores the trimmed value unless it is empty.
     * The rows are not recomposed after an in-place removal, so `index` may be past the
     * end; the index assignment then throws. The exception is not caught, so the app
     * ends; the model only records that the list is left unmodified.
     */
    method Rename(index: nat, editValue: string) returns (saved: bool, thrown: bool)
      modifies this
      ensures thrown <==> Trim(editValue) != "" && index >= |old(participants)|
      ensures saved <==> Trim(editValue) != "" && index < |old(participants)|
      ensures participants == if saved then old(participants)[index := Trim(editValue)] else old(participants)
      ensures newParticipant == old(newParticipant)
    {
      saved, thrown := false, false;
      if Trim(editValue) != "" {
        if index < |participants| {
          participants := participants[index := Trim(editValue)];
          saved := true;
        } else {
          thrown := true;
        }
      }
    }

    /**
     * The delete button of a row. A row left on screen after an earlier removal may pass
     * an index past the end; `removeAt` then throws, ending the app. The model only
     * records that the list is left unmodified.
     */
    method RemoveAt(index: nat) returns (thrown: bool)
      modifies this
      ensures thrown <==> index >= |old(participants)|
      ensures participants == if thrown then old(participants) else Lists.RemoveAt(old(participants), index)
      ensures newParticipant == old(newParticipant)
    {
      thrown := index >= |participants|;
      if !thrown {
        participants := Lists.RemoveAt(participants, index);
      }
    }

    /** The save button: the project with the edited list in place of its participants. */
    function Confirmed(p: Project): (r: Project)
      reads this
      ensures r.participants == participants
      ensures r.(participants := p.participants) == p
    {
      p.(participants := participants)
    }
  }

  /**
   * Tapping the delete button of the last row twice: the second tap still carries the
   * old index, which is now past the end, so `removeAt` throws.
   */
  method StaleRowRemoval() returns (first: bool, second: bool)
    ensures !first && second
  {
    var e := new ParticipantsEditor(Project("p", "P", 0, None, ["a", "b"]));
    first := e.RemoveAt(1);
    second := e.RemoveAt(1);
  }
}

=== FILE: lists.dfy ===
/**
 * The operations the app applies to its Kotlin lists: `indexOfFirst` followed by an
 * index assignment, `removeAt(index)` and `remove(element)`.
 */
module Lists {
  import opened Optional

  /** `indexOfFirst { key(it) == k }`: the first index whose element has key `k`, if any. */
  function IndexOfKey<T, K(==)>(s: seq<T>, key: T -> K, k: K): (r: Option<nat>)
    ensures r.Some? ==> r.value < |s| && key(s[r.value]) == k
    ensures r.Some? ==> forall j :: 0 <= j < r.value ==> key(s[j]) != k
    ensures r.None? <==> forall j :: 0 <= j < |s| ==> key(s[j]) != k
  {
    if s == [] then None
    else if key(s[0]) == k then Some(0)
    else
      match IndexOfKey(s[1..], key, k)
      case None => None
      case Some(i) => Some(i + 1)
  }

  /**
   * `val index = s.indexOfFirst { key(it) == key(v) }; if (index != -1) s[index] = v`:
   * `v` takes the place of the first element with its key; nothing else moves or changes.
   */
  function ReplaceByKey<T, K(==)>(s: seq<T>, key: T -> K, v: T): (r: seq<T>)
    ensures |r| == |s|
    ensures forall j :: 0 <= j < |s| ==> key(r[j]) == key(s[j])
    ensures forall j :: 0 <= j < |s| && r[j] != s[j] ==> r[j] == v
    ensures (forall j :: 0 <= j < |s| ==> key(s[j]) != key(v)) ==> r == s
    ensures forall i :: 0 <= i < |s| && key(s[i]) == key(v) && (forall j :: 0 <= j < i ==> key(s[j]) != key(v)) ==>
              r[i] == v && (forall j :: 0 <= j < |s| && j != i ==> r[j] == s[j])
  {
    match IndexOfKey(s, key, key(v))
    case None => s
    case Some(i) => s[i := v]
  }

  /** `removeAt(i)`: drops exactly the element at `i`; the others keep their order. */
  function RemoveAt<T>(s: seq<T>, i: nat): (r: seq<T>)
    requires i < |s|
    ensures |r| == |s| - 1
    ensures forall j :: 0 <= j < i ==> r[j] == s[j]
    ensures forall j :: i <= j < |r| ==> r[j] == s[j + 1]
    ensures multiset(r) == multiset(s) - multiset{s[i]}
  {
    assert s == s[..i] + [s[i]] + s[i + 1..];
    s[..i] + s[i + 1..]
  }

  /** The position of the first occurrence of `x` in `s`. */
  function FirstIndexOf<T(==)>(s: seq<T>, x: T): (i: nat)
    requires x in s
    ensures i < |s| && s[i] == x && x !in s[..i]
  {
    if s[0] == x then 0 else 1 + FirstIndexOf(s[1..], x)
  }

  /** `remove(x)`: drops the first element equal to `x`, or nothing when there is none. */
  function RemoveFirst<T(==)>(s: seq<T>, x: T): (r: seq<T>)
    ensures x !in s ==> r == s
    ensures x in s ==> |r| == |s| - 1 && r == s[..FirstIndexOf(s, x)] + s[FirstIndexOf(s, x) + 1..]
    ensures multiset(r) == multiset(s) - multiset{x}
  {
    if x in s then RemoveAt(s, FirstIndexOf(s, x)) else s
  }

  /** Every element of `s` other than `x` survives `RemoveFirst(s, x)`. */
  lemma RemoveFirstKeepsOthers<T>(s: seq<T>, x: T, y: T)
    requires y in s && y != x
    ensures y in RemoveFirst(s, x)
  {
    assert multiset(s)[y] > 0;
    assert multiset(RemoveFirst(s, x))[y] == multiset(s)[y];
  }
}

=== FILE: optional.dfy ===
/** Kotlin's nullable values (`String?`, `ProjectItem?`) as an explicit option type. */
module Optional {
  datatype Option<+T> = None | Some(value: T) {
    /** Kotlin's elvis operator `x ?: default`. */
    function OrElse(default: T): T {
      match this
      case Some(v) => v
      case None => default
    }
  }
}

=== FILE: raci.dfy ===
/**
 * The RACI matrix editing session: ordered positions (columns) and stages (rows),
 * a sparse map from (row, column) to a responsibility code, and the snapshot handed
 * over on save.
 */
module Raci {
  import opened Text
  import Lists
  import Dashboard

  /** A matrix key: (stage index, position index). */
  type Key = (int, int)

  /** The values a cell accepts: unassigned, Responsible, Accountable, Consulted, Informed. */
  const Codes: seq<string> := ["", "R", "A", "C", "I"]

  const DefaultPositions: seq<string> := ["Руководитель", "Разработчик"]
  const DefaultStages: seq<string> := ["Этап 1", "Этап 2"]
  const NewPosition: string := "Новая должность"
  const NewStage: string := "Новый этап"

  /** Every stored value is one of the codes. */
  ghost predicate AllCodes(m: map<Key, string>) {
    forall k :: k in m ==> m[k] in Codes
  }

  /** `RaciData`: what the save button hands over. */
  datatype RaciData = RaciData(
    projectName: string,
    positions: seq<string>,
    stages: seq<string>,
    participants: seq<string>,
    matrix: map<Key, string>)

  /**
   * The initial fill: one empty entry for every (row, column) of the given stages and
   * positions, row by row.
   */
  method BlankMatrix(stages: seq<string>, positions: seq<string>) returns (m: map<Key, string>)
    ensures forall k :: k in m <==> 0 <= k.0 < |stages| && 0 <= k.1 < |positions|
    ensures forall k :: k in m ==> m[k] == ""
  {
    m := map[];
    var row := 0;
    while row < |stages|
      invariant 0 <= row <= |stages|
      invariant forall k :: k in m <==> 0 <= k.0 < row && 0 <= k.1 < |positions|
      invariant forall k :: k in m ==> m[k] == ""
    {
      var col := 0;
      while col < |positions|
        invariant 0 <= col <= |positions|
        invariant forall k :: k in m <==> (0 <= k.0 < row && 0 <= k.1 < |positions|) || (k.0 == row && 0 <= k.1 < col)
        invariant forall k :: k in m ==> m[k] == ""
      {
        m := m[(row, col) := ""];
        col := col + 1;
      }
      row := row + 1;
    }
  }

  /** Reading a cell: the stored value, or "" for a key that was never stored. */
  function CellValue(m: map<Key, string>, key: Key): (v: string)
    ensures key in m ==> v == m[key]
    ensures key !in m ==> v == ""
    ensures AllCodes(m) ==> v in Codes
  {
    if key in m then m[key] else ""
  }

  /**
   * Typing into a cell: the upper-cased input is stored when it is a code; otherwise the
   * map stays as it was. No other key is touched, so a map of codes stays one.
   */
  function WriteCell(m: map<Key, string>, key: Key, raw: string): (r: map<Key, string>)
    ensures Uppercase(raw) in Codes ==> key in r && r[key] == Uppercase(raw)
    ensures Uppercase(raw) !in Codes ==> r == m
    ensures forall k :: k != key ==> (k in r <==> k in m)
    ensures forall k :: k != key && k in m ==> r[k] == m[k]
    ensures AllCodes(m) ==> AllCodes(r)
  {
    var upper := Uppercase(raw);
    if upper in Codes then m[key := upper] else m
  }

  /**
   * The inputs a cell accepts are exactly the empty string and the four letters in
   * either case (plus dotless i, which upper-cases to I).
   */
  lemma {:induction false} AcceptedCellInputs(raw: string)
    ensures Uppercase(raw) in Codes <==> raw in ["", "r", "R", "a", "A", "c", "C", "i", "I", "\U{131}"]
  {
    var u := Uppercase(raw);
    if |raw| == 1 {
      var c := raw[0];
      assert raw == [c];
      assert u == [UpperChar(c)];
      assert u in Codes <==> UpperChar(c) in "RACI";
      assert UpperChar(c) in "RACI" <==> c in "rRaAcCiI\U{131}";
    } else if |raw| > 1 {
      assert forall x :: x in Codes ==> |x| <= 1;
    }
  }

  /** One visit to the RACI screen of a project. */
  class RaciSession {
    var taskName: string
    var positions: seq<string>
    var stages: seq<string>
    var raciValues: map<Key, string>
    const participants: seq<string>

    /** Every stored cell value is a code. */
    ghost predicate Valid()
      reads this
    {
      AllCodes(raciValues)
    }

    /** Opening the screen: the project's name, two default positions and stages, all cells empty. */
    constructor (project: Dashboard.Project, participants: seq<string>)
      ensures Valid()
      ensures taskName == project.name && this.participants == participants
      ensures positions == DefaultPositions && stages == DefaultStages
      ensures forall k :: k in raciValues <==> 0 <= k.0 < 2 && 0 <= k.1 < 2
      ensures forall k :: k in raciValues ==> raciValues[k] == ""
    {
      var m := BlankMatrix(DefaultStages, DefaultPositions);
      taskName := project.name;
      positions := DefaultPositions;
      stages := DefaultStages;
      raciValues := m;
      this.participants := participants;
    }

    /** The value a cell shows. */
    function Cell(row: int, col: int): (v: string)
      reads this
      ensures Valid() ==> v in Codes
      ensures (row, col) !in raciValues ==> v == ""
      ensures (row, col) in raciValues ==> v == raciValues[(row, col)]
    {
      CellValue(raciValues, (row, col))
    }

    /** Typing `raw` into cell (row, col). */
    method SetCell(row: int, col: int, raw: string) returns (accepted: bool)
      requires Valid()
      modifies this
      ensures Valid()
      ensures accepted <==> Uppercase(raw) in Codes
      ensures raciValues == WriteCell(old(raciValues), (row, col), raw)
      ensures taskName == old(taskName) && positions == old(positions) && stages == old(stages)
    {
      var upper := Uppercase(raw);
      accepted := upper in Codes;
      if accepted {
        raciValues := raciValues[(row, col) := upper];
      }
    }

    /** Editing the project-name field. */
    method RenameTask(text: string)
      modifies this
      ensures taskName == text
      ensures positions == old(positions) && stages == old(stages) && raciValues == old(raciValues)
    {
      taskName := text;
    }

    /** Editing the label of position `index`; the matrix is not touched. */
    method RenamePosition(index: nat, newValue: string)
      requires index < |positions|
      modifies this
      ensures positions == old(positions)[index := newValue]
      ensures taskName == old(taskName) && stages == old(stages) && raciValues == old(raciValues)
    {
      positions := positions[index := newValue];
    }

    /** Deleting position `index`; matrix keys are neither removed nor renumbered. */
    method RemovePosition(index: nat)
      requires index < |positions|
      modifies this
      ensures positions == Lists.RemoveAt(old(positions), index)
      ensures taskName == old(taskName) && stages == old(stages) && raciValues == old(raciValues)
    {
      positions := Lists.RemoveAt(positions, index);
    }

    /** The add-position button; no matrix entries are created for the new column. */
    method AddPosition()
      modifies this
      ensures positions == old(positions) + [NewPosition]
      ensures taskName == old(taskName) && stages == old(stages) && raciValues == old(raciValues)
    {
      positions := positions + [NewPosition];
    }

    /** Editing the label of stage `index`; the matrix is not touched. */
    method RenameStage(index: nat, newValue: string)
      requires index < |stages|
      modifies this
      ensures stages == old(stages)[index := newValue]
      ensures taskName == old(taskName) && positions == old(positions) && raciValues == old(raciValues)
    {
      stages := stages[index := newValue];
    }

    /** Deleting stage `index`; matrix keys are neither removed nor renumbered. */
    method RemoveStage(index: nat)
      requires index < |stages|
      modifies this
      ensures stages == Lists.RemoveAt(old(stages), index)
      ensures taskName == old(taskName) && positions == old(positions) && raciValues == old(raciValues)
    {
      stages := Lists.RemoveAt(stages, index);
    }

    /** The add-stage button; no matrix entries are created for the new row. */
    method AddStage()
      modifies this
      ensures stages == old(stages) + [NewStage]
      ensures taskName == old(taskName) && positions == old(positions) && raciValues == old(raciValues)
    {
      stages := stages + [NewStage];
    }

    /**
     * The save button's snapshot: a copy of the current state. It reads the state
     * without changing it, so saving twice gives equal snapshots, and its matrix holds
     * only codes.
     */
    function Snapshot(): (d: RaciData)
      reads this
      ensures d.projectName == taskName && d.participants == participants
      ensures d.positions == positions && d.stages == stages && d.matrix == raciValues
      ensures Valid() ==> AllCodes(d.matrix)
    {
      RaciData(taskName, positions, stages, participants, raciValues)
    }
  }

  /**
   * A session in which a cell of the first position is set and that position then
   * removed: the entry stays under its old key (0, 0), so the value now shows under
   * "Разработчик", the column that moved into index 0. The entry at (0, 1) is kept
   * although no column reads it any more.
   */
  method StaleKeyScenario(project: Dashboard.Project) returns (column: string, shown: string)
    ensures column == "Разработчик" && shown == "R"
  {
    var s := new RaciSession(project, []);
    assert Uppercase("r") == "R";
    var accepted := s.SetCell(0, 0, "r");
    assert accepted;
    s.RemovePosition(0);
    assert s.positions == ["Разработчик"];
    column, shown := s.positions[0], s.Cell(0, 0);
    assert (0, 1) in s.raciValues && 1 >= |s.positions|;
  }
}

=== FILE: session.dfy ===
/**
 * The state the main activity keeps for one running session: login and role, the
 * project lists, the participant-roster map, the user records, and the flags that
 * choose the screen. Each UI callback becomes a method.
 */
module Session {
  import opened Optional
  import opened Text
  import opened Dashboard
  import Settings
  import Lists

  /** The screen the activity shows, in the order its `when` block tests them. */
  datatype Screen =
    | LoginScreen
    | SettingsScreen(characters: seq<Settings.Character>)
    | RaciScreen(project: Project, participants: seq<string>)
    | ParticipantsScreen(project: Project, participants: seq<string>)
    | DashboardScreen(projects: seq<Project>)

  /**
   * The login button: "admin"/"admin" grants the admin role and "user"/"user" the user
   * role, the user name compared ignoring case and the password exactly; anything
   * else grants nothing.
   */
  function LoginDecision(username: string, password: string): (r: Option<Role>)
    ensures r == Some(Admin) <==> EqualsIgnoreCase(username, "admin") && password == "admin"
    ensures r == Some(User) <==> EqualsIgnoreCase(username, "user") && password == "user"
    ensures r.Some? ==> password == "admin" || password == "user"
  {
    if EqualsIgnoreCase(username, "admin") && password == "admin" then Some(Admin)
    else if EqualsIgnoreCase(username, "user") && password == "user" then Some(User)
    else None
  }

  /** The admin name may be typed in any mix of ASCII cases. */
  lemma AdminNameInAnyCase(username: string)
    requires |username| == 5
    requires forall i :: 0 <= i < 5 ==> username[i] == "admin"[i] || username[i] == "ADMIN"[i]
    ensures LoginDecision(username, "admin") == Some(Admin)
  {
    AsciiCaseInsensitive(username, "admin");
  }

  /** Case-insensitive comparison also lets a dotless i stand for the i of "admin". */
  lemma DotlessIAdmin()
    ensures LoginDecision("adm\U{131}n", "admin") == Some(Admin)
  {
    assert CharEqualsIgnoreCase("adm\U{131}n"[3], "admin"[3]);
  }

  /** The ids of a project list. */
  function Ids(projects: seq<Project>): set<string> {
    set p | p in projects :: p.id
  }

  /** No two projects share an id. */
  predicate UniqueIds(projects: seq<Project>) {
    forall i, j :: 0 <= i < j < |projects| ==> projects[i].id != projects[j].id
  }

  /** Replacing a project by id leaves the set of ids as it was, and their uniqueness. */
  lemma {:induction false} ReplaceKeepsIds(projects: seq<Project>, updated: Project)
    ensures Ids(Lists.ReplaceByKey(projects, IdOf, updated)) == Ids(projects)
    ensures UniqueIds(projects) ==> UniqueIds(Lists.ReplaceByKey(projects, IdOf, updated))
  {
    var r := Lists.ReplaceByKey(projects, IdOf, updated);
    forall x | x in Ids(r) ensures x in Ids(projects) {
      var j :| 0 <= j < |r| && r[j].id == x;
      assert IdOf(r[j]) == IdOf(projects[j]);
      assert projects[j] in projects;
    }
    forall x | x in Ids(projects) ensures x in Ids(r) {
      var j :| 0 <= j < |projects| && projects[j].id == x;
      assert IdOf(r[j]) == IdOf(projects[j]);
      assert r[j] in r;
    }
    if UniqueIds(projects) {
      forall i, j | 0 <= i < j < |r| ensures r[i].id != r[j].id {
        assert IdOf(r[i]) == IdOf(projects[i]) && IdOf(r[j]) == IdOf(projects[j]);
      }
    }
  }

  /** Removing one project loses at most its own id. */
  lemma {:induction false} RemoveKeepsOtherIds(projects: seq<Project>, p: Project)
    ensures Ids(projects) - {p.id} <= Ids(Lists.RemoveFirst(projects, p))
  {
    var r := Lists.RemoveFirst(projects, p);
    forall x | x in Ids(projects) - {p.id} ensures x in Ids(r) {
      var q :| q in projects && q.id == x;
      Lists.RemoveFirstKeepsOthers(projects, p, q);
      assert q in r;
    }
  }

  /** Removing one project keeps the ids unique. */
  lemma {:induction false} RemoveKeepsUnique(projects: seq<Project>, p: Project)
    requires UniqueIds(projects)
    ensures UniqueIds(Lists.RemoveFirst(projects, p))
  {
    if p in projects {
      var i := Lists.FirstIndexOf(projects, p);
      var r := Lists.RemoveAt(projects, i);
      assert r == Lists.RemoveFirst(projects, p);
      forall a, b | 0 <= a < b < |r| ensures r[a].id != r[b].id {
        var a' := if a < i then a else a + 1;
        var b' := if b < i then b else b + 1;
        assert r[a] == projects[a'] && r[b] == projects[b'];
      }
    }
  }

  /** Appending a project with a fresh id keeps the ids unique. */
  lemma AppendFreshKeepsUnique(projects: seq<Project>, p: Project)
    requires UniqueIds(projects) && p.id !in Ids(projects)
    ensures UniqueIds(projects + [p])
  {
    forall i | 0 <= i < |projects| ensures projects[i].id != p.id {
      assert projects[i] in projects;
    }
  }

  /** The running session. */
  class App {
    var isLoggedIn: bool
    var currentUserRole: Role
    var userProjects: seq<Project>
    var adminProjects: seq<Project>
    var projectParticipants: map<string, seq<string>>
    var characters: seq<Settings.Character>
    var showAddProjectDialog: bool
    var projectToEdit: Option<Project>
    var projectToDelete: Option<Project>
    var showRaciScreen: bool
    var showParticipantsScreen: bool
    var showSettingsScreen: bool
    var selectedProject: Option<Project>

    /** No orphaned roster: every roster belongs to a project in the admin list. */
    ghost predicate Valid()
      reads this
    {
      projectParticipants.Keys <= Ids(adminProjects)
    }

    /** Start-up: logged out, user role, the sample projects, rosters and users, no screen flag set. */
    constructor ()
      ensures Valid() && UniqueIds(adminProjects)
      ensures !isLoggedIn && currentUserRole == User
      ensures userProjects == [Project("U1", "Мои проекты - Вид Пользователя", 5, None, [])]
      ensures adminProjects == [
        Project("A1", "Все проекты - Вид Админа", 10, Some("Разные пользователи"), []),
        Project("A2", "Закупка Материалов", 3, Some("Отдел Снабжения"), []),
        Project("A3", "Подготовка Отчета X", 7, Some("Аналитики"), [])]
      ensures projectParticipants == map[
        "A1" := ["Иванов", "Петров", "Сидоров"],
        "A2" := ["Козлов", "Алексеева"],
        "A3" := ["Морозов", "Никитина", "Ильин"]]
      ensures characters == [
        Settings.Character("1", "admin", Some("1234567890"), "Администратор системы", []),
        Settings.Character("2", "user1", None, "Пользователь 1", [])]
      ensures !showAddProjectDialog && projectToEdit == None && projectToDelete == None
      ensures !showRaciScreen && !showParticipantsScreen && !showSettingsScreen && selectedProject == None
    {
      isLoggedIn := false;
      currentUserRole := User;
      userProjects := [Project("U1", "Мои проекты - Вид Пользователя", 5, None, [])];
      adminProjects := [
        Project("A1", "Все проекты - Вид Админа", 10, Some("Разные пользователи"), []),
        Project("A2", "Закупка Материалов", 3, Some("Отдел Снабжения"), []),
        Project("A3", "Подготовка Отчета X", 7, Some("Аналитики"), [])];
      projectParticipants := map[
        "A1" := ["Иванов", "Петров", "Сидоров"],
        "A2" := ["Козлов", "Алексеева"],
        "A3" := ["Морозов", "Никитина", "Ильин"]];
      characters := [
        Settings.Character("1", "admin", Some("1234567890"), "Администратор системы", []),
        Settings.Character("2", "user1", None, "Пользователь 1", [])];
      showAddProjectDialog := false;
      projectToEdit := None;
      projectToDelete := None;
      showRaciScreen := false;
      showParticipantsScreen := false;
      showSettingsScreen := false;
      selectedProject := None;
      new;
      assert adminProjects[0] in adminProjects && adminProjects[1] in adminProjects && adminProjects[2] in adminProjects;
    }

    /** The roster the RACI (and the unreachable participants) screen reads: the stored list, or empty if none. */
    function Roster(id: string): (r: seq<string>)
      reads this
      ensures id in projectParticipants ==> r == projectParticipants[id]
      ensures id !in projectParticipants ==> r == []
    {
      if id in projectParticipants then projectParticipants[id] else []
    }

    /** Which screen is shown, and with what data. */
    function CurrentScreen(): (r: Screen)
      reads this
      ensures !isLoggedIn <==> r == LoginScreen
      ensures r.SettingsScreen? ==> r.characters == characters
      ensures r.RaciScreen? ==> showRaciScreen && selectedProject == Some(r.project)
      ensures r.RaciScreen? ==> r.participants == Roster(r.project.id)
      ensures r.ParticipantsScreen? ==> selectedProject == Some(r.project) && r.participants == Roster(r.project.id)
      ensures r.DashboardScreen? ==> (r.projects == adminProjects <== currentUserRole == Admin)
      ensures r.DashboardScreen? ==> (r.projects == userProjects <== currentUserRole == User)
      ensures isLoggedIn && !showSettingsScreen && !showRaciScreen && !showParticipantsScreen ==> r.DashboardScreen?
      ensures isLoggedIn && showSettingsScreen ==> r == SettingsScreen(characters)
      ensures isLoggedIn && !showSettingsScreen && showRaciScreen && selectedProject.Some? ==>
                r == RaciScreen(selectedProject.value, Roster(selectedProject.value.id))
      ensures isLoggedIn && !showSettingsScreen && !(showRaciScreen && selectedProject.Some?)
                && showParticipantsScreen && selectedProject.Some? ==>
                r == ParticipantsScreen(selectedProject.value, Roster(selectedProject.value.id))
      ensures r.SettingsScreen? ==> showSettingsScreen
      ensures r.ParticipantsScreen? ==> showParticipantsScreen && !showSettingsScreen && !showRaciScreen
      ensures r.RaciScreen? ==> !showSettingsScreen
    {
      if !isLoggedIn then LoginScreen
      else if showSettingsScreen then SettingsScreen(characters)
      else if showRaciScreen && selectedProject.Some? then RaciScreen(selectedProject.value, Roster(selectedProject.value.id))
      else if showParticipantsScreen && selectedProject.Some? then
        ParticipantsScreen(selectedProject.value, Roster(selectedProject.value.id))
      else DashboardScreen(if currentUserRole == Admin then adminProjects else userProjects)
    }

    /** The login screen's button. */
    method Login(username: string, password: string)
      modifies this`isLoggedIn, this`currentUserRole
      ensures LoginDecision(username, password).Some? ==>
                isLoggedIn && currentUserRole == LoginDecision(username, password).value
      ensures LoginDecision(username, password).None? ==>
                isLoggedIn == old(isLoggedIn) && currentUserRole == old(currentUserRole)
    {
      if EqualsIgnoreCase(username, "admin") && password == "admin" {
        currentUserRole := Admin;
        isLoggedIn := true;
      } else if EqualsIgnoreCase(username, "user") && password == "user" {
        currentUserRole := User;
        isLoggedIn := true;
      }
    }

    /** The logout button: logged out, no dialog, no screen flag, no selected project. */
    method Logout()
      modifies this`isLoggedIn, this`showAddProjectDialog, this`projectToEdit, this`projectToDelete
      modifies this`showRaciScreen, this`showParticipantsScreen, this`selectedProject, this`showSettingsScreen
      ensures !isLoggedIn && !showAddProjectDialog && projectToEdit == None && projectToDelete == None
      ensures !showRaciScreen && !showParticipantsScreen && selectedProject == None && !showSettingsScreen
      ensures CurrentScreen() == LoginScreen
    {
      isLoggedIn := false;
      showAddProjectDialog := false;
      projectToEdit := None;
      projectToDelete := None;
      showRaciScreen := false;
      showParticipantsScreen := false;
      selectedProject := None;
      showSettingsScreen := false;
    }

    /** Tapping a project card: an admin opens its RACI screen. */
    method OpenRaci(p: Project)
      modifies this`selectedProject, this`showRaciScreen
      ensures currentUserRole == Admin ==> selectedProject == Some(p) && showRaciScreen
      ensures currentUserRole != Admin ==>
                selectedProject == old(selectedProject) && showRaciScreen == old(showRaciScreen)
    {
      if currentUserRole == Admin {
        selectedProject := Some(p);
        showRaciScreen := true;
      }
    }

    /**
     * The participants callback: an admin opens the participants screen. The dashboard
     * never invokes this callback, so the app never shows that screen.
     */
    method OpenParticipants(p: Project)
      modifies this`selectedProject, this`showParticipantsScreen
      ensures currentUserRole == Admin ==> selectedProject == Some(p) && showParticipantsScreen
      ensures currentUserRole != Admin ==>
                selectedProject == old(selectedProject) && showParticipantsScreen == old(showParticipantsScreen)
    {
      if currentUserRole == Admin {
        selectedProject := Some(p);
        showParticipantsScreen := true;
      }
    }

    /** The add button: an admin opens the add-project dialog. */
    method RequestAddProject()
      modifies this`showAddProjectDialog
      ensures showAddProjectDialog == (currentUserRole == Admin || old(showAddProjectDialog))
    {
      if currentUserRole == Admin {
        showAddProjectDialog := true;
      }
    }

    /** The edit icon: an admin opens the edit dialog for `p`. */
    method RequestEdit(p: Project)
      modifies this`projectToEdit
      ensures projectToEdit == if currentUserRole == Admin then Some(p) else old(projectToEdit)
    {
      if currentUserRole == Admin {
        projectToEdit := Some(p);
      }
    }

    /** The delete icon: an admin opens the delete confirmation for `p`. */
    method RequestDelete(p: Project)
      modifies this`projectToDelete
      ensures projectToDelete == if currentUserRole == Admin then Some(p) else old(projectToDelete)
    {
      if currentUserRole == Admin {
        projectToDelete := Some(p);
      }
    }

    /** The settings icon: an admin opens the user settings. */
    method OpenSettings()
      modifies this`showSettingsScreen
      ensures showSettingsScreen == (currentUserRole == Admin || old(showSettingsScreen))
    {
      if currentUserRole == Admin {
        showSettingsScreen := true;
      }
    }

    /** Back from the user settings. */
    method CloseSettings()
      modifies this`showSettingsScreen
      ensures !showSettingsScreen
    {
      showSettingsScreen := false;
    }

    /** Back or save on the RACI screen (the snapshot itself is only logged). */
    method CloseRaci()
      modifies this`showRaciScreen, this`selectedProject
      ensures !showRaciScreen && selectedProject == None
    {
      showRaciScreen := false;
      selectedProject := None;
    }

    /** Back from the participants screen. */
    method CloseParticipants()
      modifies this`showParticipantsScreen, this`selectedProject
      ensures !showParticipantsScreen && selectedProject == None
    {
      showParticipantsScreen := false;
      selectedProject := None;
    }

    /** Dismissing the add, edit or delete dialog. */
    method DismissDialogs(add: bool, edit: bool, delete: bool)
      modifies this`showAddProjectDialog, this`projectToEdit, this`projectToDelete
      ensures showAddProjectDialog == (old(showAddProjectDialog) && !add)
      ensures projectToEdit == if edit then None else old(projectToEdit)
      ensures projectToDelete == if delete then None else old(projectToDelete)
    {
      if add { showAddProjectDialog := false; }
      if edit { projectToEdit := None; }
      if delete { projectToDelete := None; }
    }

    /**
     * The add dialog's confirm: appends a new project "name (type)" with no tasks and
     * no participants, gives it an empty roster, selects it and opens its RACI screen.
     */
    method AddProject(name: string, taskType: string, owner: string, freshId: string)
      requires Valid()
      modifies this`adminProjects, this`projectParticipants, this`selectedProject
      modifies this`showAddProjectDialog, this`showRaciScreen
      ensures Valid()
      ensures adminProjects == old(adminProjects) + [Project(freshId, AddedName(name, taskType), 0, Some(owner), [])]
      ensures projectParticipants == old(projectParticipants)[freshId := []]
      ensures selectedProject == Some(adminProjects[|adminProjects| - 1])
      ensures !showAddProjectDialog && showRaciScreen
      ensures old(UniqueIds(adminProjects)) && freshId !in old(Ids(adminProjects)) ==> UniqueIds(adminProjects)
      ensures isLoggedIn && !showSettingsScreen ==>
                CurrentScreen() == RaciScreen(adminProjects[|adminProjects| - 1], [])
    {
      var newProject := Project(freshId, AddedName(name, taskType), 0, Some(owner), []);
      if UniqueIds(adminProjects) && freshId !in Ids(adminProjects) {
        AppendFreshKeepsUnique(adminProjects, newProject);
      }
      adminProjects := adminProjects + [newProject];
      assert newProject in adminProjects;
      projectParticipants := projectParticipants[freshId := []];
      selectedProject := Some(newProject);
      showAddProjectDialog := false;
      showRaciScreen := true;
    }

    /**
     * The edit dialog's confirm (also used by the participants dialog): the first project
     * with the same id is replaced in place; the roster map is not touched.
     */
    method EditProject(updated: Project)
      requires Valid()
      modifies this`adminProjects, this`projectToEdit
      ensures Valid()
      ensures adminProjects == Lists.ReplaceByKey(old(adminProjects), IdOf, updated)
      ensures Ids(adminProjects) == old(Ids(adminProjects))
      ensures old(UniqueIds(adminProjects)) ==> UniqueIds(adminProjects)
      ensures projectToEdit == None
    {
      ReplaceKeepsIds(adminProjects, updated);
      var index := Lists.IndexOfKey(adminProjects, IdOf, updated.id);
      if index.Some? {
        adminProjects := adminProjects[index.value := updated];
      }
      projectToEdit := None;
    }

    /**
     * The delete confirmation: removes the first project equal to `p` and the roster
     * stored under its id.
     */
    method DeleteProject(p: Project)
      requires Valid()
      modifies this`adminProjects, this`projectParticipants, this`projectToDelete
      ensures Valid()
      ensures adminProjects == Lists.RemoveFirst(old(adminProjects), p)
      ensures projectParticipants == old(projectParticipants) - {p.id}
      ensures p.id !in projectParticipants && Roster(p.id) == []
      ensures old(UniqueIds(adminProjects)) ==> UniqueIds(adminProjects)
      ensures projectToDelete == None
    {
      RemoveKeepsOtherIds(adminProjects, p);
      if UniqueIds(adminProjects) { RemoveKeepsUnique(adminProjects, p); }
      adminProjects := Lists.RemoveFirst(adminProjects, p);
      projectParticipants := projectParticipants - {p.id};
      projectToDelete := None;
    }

    /** Saving a user's details: the first record with the same id is replaced in place. */
    method UpdateCharacter(updated: Settings.Character)
      modifies this`characters
      ensures characters == Lists.ReplaceByKey(old(characters), Settings.IdOf, updated)
    {
      var index := Lists.IndexOfKey(characters, Settings.IdOf, updated.id);
      if index.Some? {
        characters := characters[index.value := updated];
      }
    }

    /** Adding a user: the record is appended as given. */
    method AddCharacter(c: Settings.Character)
      modifies this`characters
      ensures characters == old(characters) + [c]
    {
      characters := characters + [c];
    }
  }
}

=== FILE: settings.dfy ===
/**
 * The user ("character") records of the settings screen: blank-position filtering,
 * the validation of the add dialog, the save of the detail screen, and the
 * job-positions list editor.
 */
module Settings {
  import opened Optional
  import opened Text
  import Lists

  /** `Character`: `phone` is nullable and unused by the screens. */
  datatype Character = Character(
    id: string,
    login: string,
    phone: Option<string>,
    description: string,
    positions: seq<string>)

  /** The key by which the registry looks characters up. */
  function IdOf(c: Character): string { c.id }

  /** `filter { it.isNotBlank() }`: the non-blank positions, in their original order. */
  function NonBlank(positions: seq<string>): (r: seq<string>)
    ensures |r| <= |positions|
    ensures forall i :: 0 <= i < |r| ==> !IsBlank(r[i])
    ensures forall x :: x in r <==> x in positions && !IsBlank(x)
  {
    if positions == [] then []
    else if IsBlank(positions[0]) then NonBlank(positions[1..])
    else [positions[0]] + NonBlank(positions[1..])
  }

  /** Filtering distributes over concatenation, so relative order is kept. */
  lemma {:induction false} NonBlankAppend(a: seq<string>, b: seq<string>)
    ensures NonBlank(a + b) == NonBlank(a) + NonBlank(b)
  {
    if a != [] {
      assert (a + b)[1..] == a[1..] + b;
      NonBlankAppend(a[1..], b);
    } else {
      assert a + b == b;
    }
  }

  /** A list without blank entries passes the filter unchanged. */
  lemma {:induction false} NonBlankOfClean(positions: seq<string>)
    requires forall i :: 0 <= i < |positions| ==> !IsBlank(positions[i])
    ensures NonBlank(positions) == positions
  {
    if positions != [] {
      NonBlankOfClean(positions[1..]);
    }
  }

  /** The empty row that the editor's add button appends is dropped again at save time. */
  lemma AppendedBlankIsDropped(positions: seq<string>)
    ensures NonBlank(positions + [""]) == NonBlank(positions)
  {
    NonBlankAppend(positions, [""]);
  }

  /** The record the add dialog starts from. */
  const EmptyTemplate: Character := Character("", "", Some(""), "", [])

  /**
   * The add dialog's confirm button: accepted only for a non-blank login and at least
   * one non-blank position; it then carries the login, the description and the
   * filtered positions, and keeps the rest of the starting record.
   */
  function ConfirmCharacter(initial: Character, login: string, description: string, positions: seq<string>)
    : (r: Option<Character>)
    ensures r.Some? <==> !IsBlank(login) && exists x :: x in positions && !IsBlank(x)
    ensures r.Some? ==> r.value.id == initial.id && r.value.phone == initial.phone
    ensures r.Some? ==> r.value.login == login && r.value.description == description
    ensures r.Some? ==> r.value.positions == NonBlank(positions) && r.value.positions != []
  {
    var filtered := NonBlank(positions);
    if !IsBlank(login) && filtered != [] then
      assert filtered[0] in filtered;
      Some(initial.(login := login, description := description, positions := filtered))
    else
      assert filtered == [] ==> forall x :: x in positions ==> IsBlank(x);
      None
  }

  /**
   * Adding a user from the settings screen: the confirmed record from the empty
   * template, given the fresh id.
   */
  function NewCharacter(login: string, description: string, positions: seq<string>, freshId: string)
    : (r: Option<Character>)
    ensures r.Some? <==> !IsBlank(login) && NonBlank(positions) != []
    ensures r.Some? ==> r.value == Character(freshId, login, Some(""), description, NonBlank(positions))
  {
    match ConfirmCharacter(EmptyTemplate, login, description, positions)
    case None => None
    case Some(c) => Some(c.(id := freshId))
  }

  /** An empty login is refused. */
  lemma EmptyLoginRejected(freshId: string)
    ensures NewCharacter("", "desc", ["Dev"], freshId) == None
  {
  }

  /** A login with only blank positions is refused. */
  lemma BlankPositionsRejected(freshId: string)
    ensures NewCharacter("bob", "desc", ["", " "], freshId) == None
  {
    assert IsBlank(" ") by { assert IsWhitespace(" "[0]); }
  }

  /**
   * The detail screen's save button: keeps id and phone, takes the new login and
   * description as they are (the login is not validated) and the filtered positions.
   */
  function SaveDetails(c: Character, login: string, description: string, positions: seq<string>)
    : (r: Character)
    ensures r.id == c.id && r.phone == c.phone
    ensures r.login == login && r.description == description
    ensures forall i :: 0 <= i < |r.positions| ==> !IsBlank(r.positions[i])
    ensures forall x :: x in r.positions <==> x in positions && !IsBlank(x)
    ensures r.positions == NonBlank(positions)
  {
    c.(login := login, description := description, positions := NonBlank(positions))
  }

  /**
   * The positions list editor. Each button copies the list, changes the copy and
   * stores it back; the copy is then handed to the enclosing screen unchanged.
   */
  class PositionsEditor {
    var localPositions: seq<string>

    constructor (positions: seq<string>)
      ensures localPositions == positions
    {
      localPositions := positions;
    }

    /** Typing into the field of row `index`: replaces that entry only. */
    method Edit(index: nat, newValue: string) returns (published: seq<string>)
      requires index < |localPositions|
      modifies this
      ensures |localPositions| == |old(localPositions)|
      ensures localPositions[index] == newValue
      ensures forall j :: 0 <= j < |localPositions| && j != index ==> localPositions[j] == old(localPositions)[j]
      ensures published == localPositions
    {
      var newList := localPositions;
      newList := newList[index := newValue];
      localPositions := newList;
      published := localPositions;
    }

    /** The delete button of row `index`. */
    method Remove(index: nat) returns (published: seq<string>)
      requires index < |localPositions|
      modifies this
      ensures localPositions == Lists.RemoveAt(old(localPositions), index)
      ensures published == localPositions
    {
      var newList := localPositions;
      newList := Lists.RemoveAt(newList, index);
      localPositions := newList;
      published := localPositions;
    }

    /** The add button: one empty entry at the end. */
    method Append() returns (published: seq<string>)
      modifies this
      ensures localPositions == old(localPositions) + [""]
      ensures published == localPositions
    {
      var newList := localPositions;
      newList := newList + [""];
      localPositions := newList;
      published := localPositions;
    }
  }
}

=== FILE: text.dfy ===
/**
 * The few string operations of the Kotlin standard library that the app's data
 * rules rely on: `Char.isWhitespace`, `String.trim`, `String.isBlank`,
 * `String.uppercase` and `String.equals(other, ignoreCase = true)`.
 */
module Text {

  /**
   * `Char.isWhitespace` on the JVM: `Character.isWhitespace(c) || Character.isSpaceChar(c)`,
   * i.e. the ASCII controls TAB..CR and FS..US plus every space, line and paragraph separator.
   */
  predicate IsWhitespace(c: char)
    ensures c == ' ' || c == '\t' || c == '\n' || c == '\U{A0}' || c == '\U{202F}' || c == '\U{3000}' ==> IsWhitespace(c)
    ensures IsWhitespace(c) ==> !('0' <= c <= '9' || 'A' <= c <= 'Z' || 'a' <= c <= 'z' || c == '(' || c == ')')
  {
    || ('\t' <= c <= '\r')
    || ('\U{1C}' <= c <= ' ')
    || c == '\U{A0}' || c == '\U{1680}'
    || ('\U{2000}' <= c <= '\U{200A}')
    || c == '\U{2028}' || c == '\U{2029}' || c == '\U{202F}' || c == '\U{205F}' || c == '\U{3000}'
  }

  /** `String.isBlank()`: empty, or whitespace only. */
  predicate IsBlank(s: string)
    ensures s == [] ==> IsBlank(s)
    ensures IsBlank(s) <==> LeadingEnd(s, 0) == |s|
  {
    forall i :: 0 <= i < |s| ==> IsWhitespace(s[i])
  }

  /** The end of the run of whitespace that starts at `i`. */
  function LeadingEnd(s: string, i: nat): (n: nat)
    requires i <= |s|
    ensures i <= n <= |s|
    ensures forall k :: i <= k < n ==> IsWhitespace(s[k])
    ensures n < |s| ==> !IsWhitespace(s[n])
    decreases |s| - i
  {
    if i < |s| && IsWhitespace(s[i]) then LeadingEnd(s, i + 1) else i
  }

  /** The start of the run of whitespace that ends just before `j`. */
  function TrailingStart(s: string, j: nat): (n: nat)
    requires j <= |s|
    ensures n <= j
    ensures forall k :: n <= k < j ==> IsWhitespace(s[k])
    ensures 0 < n ==> !IsWhitespace(s[n - 1])
  {
    if 0 < j && IsWhitespace(s[j - 1]) then TrailingStart(s, j - 1) else j
  }

  /** Everything before `i` and from `j` on is whitespace. */
  predicate Dropped(s: string, i: int, j: int)
    requires 0 <= i <= j <= |s|
  {
    (forall k :: 0 <= k < i ==> IsWhitespace(s[k])) && (forall k :: j <= k < |s| ==> IsWhitespace(s[k]))
  }

  /**
   * `String.trim()`: the infix of `s` left after dropping whitespace at both ends.
   * It is empty exactly when `s` is blank, so `trim().isNotEmpty()` and `isNotBlank()` agree.
   */
  function Trim(s: string): (r: string)
    ensures |r| <= |s|
    ensures r == [] <==> IsBlank(s)
    ensures r != [] ==> !IsWhitespace(r[0]) && !IsWhitespace(r[|r| - 1])
    ensures exists i, j :: 0 <= i <= j <= |s| && r == s[i..j] && Dropped(s, i, j)
  {
    var i := LeadingEnd(s, 0);
    var j := TrailingStart(s, |s|);
    if j <= i then
      assert [] == s[|s|..|s|] && Dropped(s, |s|, |s|);
      []
    else
      assert Dropped(s, i, j);
      s[i..j]
  }

  /** A string without whitespace at either end is its own trim. */
  lemma TrimOfTrimmed(s: string)
    requires s != [] ==> !IsWhitespace(s[0]) && !IsWhitespace(s[|s| - 1])
    ensures Trim(s) == s
  {
  }

  /** Trimming twice is trimming once. */
  lemma TrimIdempotent(s: string)
    ensures Trim(Trim(s)) == Trim(s)
  {
    TrimOfTrimmed(Trim(s));
  }

  /** `Char.uppercaseChar()` on the letters this model covers: ASCII, dotless i, long s. */
  function UpperChar(c: char): char {
    if 'a' <= c <= 'z' then (c as int - 32) as char
    else if c == '\U{131}' then 'I'
    else if c == '\U{17F}' then 'S'
    else c
  }

  /** `Char.lowercaseChar()` on the letters this model covers: ASCII and capital dotted I. */
  function LowerChar(c: char): char {
    if 'A' <= c <= 'Z' then (c as int + 32) as char
    else if c == '\U{130}' then 'i'
    else c
  }

  /** `String.uppercase()`, character by character. */
  function Uppercase(s: string): (r: string)
    ensures |r| == |s|
    ensures forall i :: 0 <= i < |s| ==> r[i] == UpperChar(s[i])
  {
    seq(|s|, i requires 0 <= i < |s| => UpperChar(s[i]))
  }

  /** The per-character test of `String.equals(other, ignoreCase = true)`. */
  predicate CharEqualsIgnoreCase(a: char, b: char) {
    || a == b
    || UpperChar(a) == UpperChar(b)
    || LowerChar(UpperChar(a)) == LowerChar(UpperChar(b))
  }

  /** `String.equals(other, ignoreCase = true)`: same length, pairwise equal up to case. */
  predicate EqualsIgnoreCase(a: string, b: string)
    ensures EqualsIgnoreCase(a, b) ==> |a| == |b|
    ensures a == b ==> EqualsIgnoreCase(a, b)
    ensures |a| == |b| && Uppercase(a) == Uppercase(b) ==> EqualsIgnoreCase(a, b)
  {
    |a| == |b| && forall i :: 0 <= i < |a| ==> CharEqualsIgnoreCase(a[i], b[i])
  }

  /** Every ASCII spelling of a lower-case word, in any mix of cases, equals it ignoring case. */
  lemma AsciiCaseInsensitive(a: string, b: string)
    requires |a| == |b|
    requires forall i :: 0 <= i < |b| ==> 'a' <= b[i] <= 'z'
    requires forall i :: 0 <= i < |a| ==> a[i] == b[i] || a[i] as int == b[i] as int - 32
    ensures EqualsIgnoreCase(a, b)
  {
  }
}
